=== FILE: README.md ===
# Trac2Kanban decision core in Dafny

Trac2Kanban is a Trac plugin that puts a button on a ticket page. The button
copies the ticket into a card on the team's LeanKit Kanban board. This project
models the plugin's pure logic, which sits between Trac and the LeanKit
HTTP/JSON API:

- the action route `<trac_path_kanban>/<digits>` and how it is parsed;
- the configuration mappings built as `dict(zip(list1, list2))`: team to board,
  and Trac priority to Kanban priority;
- how a board is resolved from the GetBoardIdentifiers reply (lane at the
  configured position, allowed card types, the two-value unpacking);
- the card payload, how `add_card` stamps its type, and the AddCard URL;
- the card-existence decision and the link label;
- the page-filter guards, and the activation flow ending in a 302 redirect.

HTTP replies, tickets and the configuration are plain input values. Requests
the code would send (the AddCard POST) and the redirect response are returned
as data. Python exceptions become `Failure(Error)` values of `Wrappers.Result`.

Modules, in dependency order:

- `Wrappers` (wrappers.dfy): `Option` and `Result`.
- `Decimal` (decimal.dfy): `"%d"`, `str` and `int` on integers.
- `PyDict` (pydict.dfy): Python `zip`, `dict` and list indexing.
- `Route` (route.dfy): the action route.
- `Trac` (trac.dfy): configuration, tickets and errors.
- `LeanKit` (leankit.dfy): the `Board` and `LeanKitService` classes.
- `Plugin` (plugin.dfy): `Trac2KanbanPlugin`.
- `Scenarios` (scenarios.dfy): worked configurations.

Python semantics stated explicitly in the model:

- Regex `\d` matches ASCII digits only.
- Regex `$` also matches before one final `"\n"`.
- `zip` stops at the shorter list.
- In `dict`, a later duplicate key wins.
- A negative list index counts from the end.
- `int("0042")` is 42, so a redirect prints the id without leading zeros.

The configured `trac_path_kanban` is put into the route pattern without
escaping. The model treats it as literal text. That is exact only when the
path contains no regular-expression metacharacters.

Three facts about the code that shape the model:

- The team is always read from the ticket field `team` (`trac2kanban/__init__.py:43,70`).
- Board construction needs exactly one matching card type
  (`trac2kanban/__init__.py:110`). The id list is unpacked into exactly two
  values, so zero or several matches raise an error.
- The lane position may be negative, and then counts from the end of the lanes.

## Model

| member | source | states |
|---|---|---|
| Decimal.NatToDecimal | trac2kanban/__init__.py:57 | `"%d"` of a ticket id gives a non-empty ASCII digit string with no leading zero (only zero itself starts with '0') |
| Decimal.ParseNatToDecimal | trac2kanban/__init__.py:57 | parsing the printed id gives the same number back |
| Decimal.NatToDecimalParse | trac2kanban/__init__.py:66-74 | printing a parsed canonical digit string gives that string back |
| Decimal.ParseDecimal | trac2kanban/__init__.py:66-67 | contract-free definition of `int()` on the route's digit string, as Trac applies it to the ticket id; its meaning is pinned by Decimal.ParseNatToDecimal and Decimal.NatToDecimalParse |
| Decimal.IntToDecimal | trac2kanban/__init__.py:130-131 | `"%s"` of a JSON integer id: digits and signs only; a leading minus exactly for negative values, followed by the magnitude's decimal; otherwise the plain decimal |
| Decimal.IntToDecimalParse | trac2kanban/__init__.py:130-131 | reading the text back, sign then magnitude, gives the integer |
| Decimal.IntToDecimalInjective | trac2kanban/__init__.py:130-131 | different integers print differently |
| PyDict.Zip | trac2kanban/__init__.py:107-108 | `zip` has the length of the shorter list, and its k-th pair holds the k-th elements |
| PyDict.DictOf | trac2kanban/__init__.py:107-108 | the keys of `dict(pairs)` are exactly the keys occurring in the pairs |
| PyDict.LastIndexOf | trac2kanban/__init__.py:156-157 | gives the position of the last pair with a key (no later pair has it), or -1 when no pair has it |
| PyDict.DictOfLastWins | trac2kanban/__init__.py:156-157 | looking a key up in `dict(pairs)` gives the value of its last pair, and None when no pair has it |
| PyDict.ZipDictKeys | trac2kanban/__init__.py:158 | a key is in `dict(zip(ks, vs))` iff it occurs in `ks` at a position where `vs` also has an element |
| PyDict.ZipDictValue | trac2kanban/__init__.py:166-167 | the value of a key is the one paired with its last occurrence before the shorter list ends |
| PyDict.ZipDictDistinct | trac2kanban/__init__.py:107-108 | with distinct keys and enough values, each key maps to the value at its own position |
| PyDict.PyIndex | trac2kanban/__init__.py:123 | list indexing succeeds iff `-len <= i < len`; a non-negative index gives that element |
| PyDict.PyIndexNegative | trac2kanban/__init__.py:123 | a negative index names the same element as `len + i` |
| Route.ParseTicketId | trac2kanban/__init__.py:76-83 | a returned id comes from a path that is the prefix, '/', one or more ASCII digits and at most one trailing newline |
| Route.ParseTicketIdComplete | trac2kanban/__init__.py:31 | every path of that shape is recognised, with exactly its digits |
| Route.MatchRequest | trac2kanban/__init__.py:60-62 | the request matches with digits d iff the path is the route path for d, so the match exists iff the path has the route's shape |
| Route.RouteOfTicketId | trac2kanban/__init__.py:57 | `prefix + "/" + "%d" % id` matches the route and its digits parse back to id |
| LeanKit.MatchingCardTypeIds | trac2kanban/__init__.py:124 | every id kept belongs to a card type of the reply whose name is allowed |
| LeanKit.MatchingAppend | trac2kanban/__init__.py:124 | filtering card types by name distributes over concatenation, so matches keep reply order |
| LeanKit.MatchingMembers | trac2kanban/__init__.py:124 | an id is among the matches iff some card type with that id has an allowed name |
| LeanKit.MatchingNone | trac2kanban/__init__.py:124 | if no card type has an allowed name, no id matches |
| LeanKit.MatchingSingle | trac2kanban/__init__.py:124 | if exactly one card type has an allowed name, the matches are its id alone |
| LeanKit.MatchingTwo | trac2kanban/__init__.py:124 | two card types with allowed names give at least two matches |
| LeanKit.MatchingOneHasSingle | trac2kanban/__init__.py:124 | a single matching id comes from a card type that is the only one with an allowed name |
| LeanKit.MatchingOneIffSingle | trac2kanban/__init__.py:124 | there is exactly one match iff exactly one card type has an allowed name |
| LeanKit.TeamBoards | trac2kanban/__init__.py:156-157 | contract-free definition of `dict(zip(trac_teams, kanban_boards))`; its meaning is pinned by PyDict.ZipDictKeys, PyDict.ZipDictValue and LeanKit.GetBoardTeams |
| LeanKit.Priorities | trac2kanban/__init__.py:166-167 | contract-free definition of `dict(zip(trac_priorities, kanban_priorities))`; its meaning is pinned by LeanKit.CreateCardPriority |
| LeanKit.ParseInfo | trac2kanban/__init__.py:119-125 | empty ReplyData fails; otherwise success iff the lane position is in Python range; the list is the lane's id (negative positions from the end) then the matching card-type ids |
| LeanKit.NewBoard | trac2kanban/__init__.py:104-110 | an unknown team raises KeyError; for a mapped team a `_parse_info` error propagates unchanged; a built board carries the team's board id and `[laneId, cardTypeId]` is exactly the parsed list; it is built iff exactly one card type matches |
| LeanKit.NewBoardCardType | trac2kanban/__init__.py:110 | the board is built iff exactly one card type has an allowed name, and then has that type's id; otherwise unpacking fails with `1 + matches` values |
| LeanKit.GetBoard | trac2kanban/__init__.py:154-160 | no board iff the team is absent or not a key of the team mapping; for a key, exactly the board `Board.__init__` builds or the error it raises; a board carries the mapped board id; it never raises KeyError for the team |
| LeanKit.GetBoardTeams | trac2kanban/__init__.py:156-160 | no board iff the team is not among the teams paired with a board; otherwise the result is the constructed board (or its error), whose id is the one at the team's last such position |
| LeanKit.CreateCard | trac2kanban/__init__.py:162-184 | success iff the ticket's priority value is a key of the priority mapping, else UnknownPriority; the card holds the translated priority, the ticket id, "Trac", the ticket URL and the fixed constants |
| LeanKit.CreateCardPriority | trac2kanban/__init__.py:166-173 | the card priority is the Kanban name paired with the last occurrence of the ticket's priority |
| LeanKit.CreateCardExternalUrl | trac2kanban/__init__.py:179 | the external URL is the Trac base URL and ticket path, then a segment that parses back to the ticket id |
| LeanKit.AddCardUrl | trac2kanban/__init__.py:130-131 | the URL is `<base>/Kanban/Api/Board/<board id>/AddCard/Lane/` followed by the lane id's text, `/Position/` and the position's text |
| LeanKit.AddCardUrlInjective | trac2kanban/__init__.py:130-131 | on the same board, the URL determines both the lane id and the position |
| LeanKit.AddCard | trac2kanban/__init__.py:127-135 | the sent card has the board's card type id, and restoring the old type id gives back the input card, so nothing else changes |
| LeanKit.AddCardIgnoresPriorType | trac2kanban/__init__.py:129 | cards differing only in type id produce the same request, and stamping twice is the same as stamping once |
| LeanKit.AddCardDefaultPosition | trac2kanban/__init__.py:127 | without a position the card goes to position 0 of the lane |
| LeanKit.BoardViewUrl | trac2kanban/__init__.py:143 | the board view URL is never empty, so Python's truth test on it only tests for None |
| LeanKit.BoardViewUrlInjective | trac2kanban/__init__.py:143 | on one service base URL, the board view URL determines the board id |
| LeanKit.GetCardUrl | trac2kanban/__init__.py:137-144 | a URL is returned iff the reply code is exactly 200, and it is the board view URL |
| LeanKit.GetCardUrlIgnoresExternalId | trac2kanban/__init__.py:137-144 | the returned URL does not depend on the external id |
| Plugin.KanbanForm | trac2kanban/__init__.py:49-58 | reply code 200 gives "Baby on Board" with the board view URL; any other code gives "Kanbanize!" with `trac_path_kanban/<id>` |
| Plugin.ActionUrl | trac2kanban/__init__.py:56-57 | contract-free definition of `"%s/%d" % (trac_path_kanban, ticket.id)`; Plugin.KanbanizeLinkRoutesBack shows the route reads the id back from it |
| Plugin.KanbanizeLinkRoutesBack | trac2kanban/__init__.py:56-57 | the "Kanbanize!" href is accepted by the action route and yields the ticket's own id |
| Plugin.RedirectTo | trac2kanban/__init__.py:92-98 | status 302 and exactly two headers, Location with the URL and then Content-Length equal to the body's length, with an empty body |
| Plugin.PageQualifies | trac2kanban/__init__.py:35-39 | contract-free definition of the page guards: ticket page, a ticket present and persisted, and the configured permission held; Plugin.FilterStream and Plugin.FilterStreamUnchanged state their effect |
| Plugin.FilterStream | trac2kanban/__init__.py:33-47 | unchanged unless ticket page, ticket present and persisted, and permission held; then unchanged if the team has no board, the board error if construction raises, else the link after the description |
| Plugin.FilterStreamUnchanged | trac2kanban/__init__.py:33-47 | the stream is unchanged iff a guard fails or the team has no board; an inserted link says "Baby on Board" iff the reply code is 200 |
| Plugin.ProcessRequest | trac2kanban/__init__.py:64-74 | an unmatched path or an id with no persisted ticket fails; otherwise a board error propagates first, then the priority error, then NoBoard; with a board and a card it posts `add_card(board, create_card(ticket))` and redirects to `trac_path_ticket/<id>` |
| Plugin.ProcessRequestUnguarded | trac2kanban/__init__.py:64-72 | activation fails, not redirects, when the ticket is missing or its team has no board |
| Plugin.ProcessRequestSuccess | trac2kanban/__init__.py:64-74 | after success the posted card is `create_card`'s card with the board's type id, sent to position 0, and the 302 Location names the id in canonical form |
| Scenarios.SingleTeamBoard | trac2kanban/__init__.py:104-125 | team "alpha" on board "123", with lane 7 and card type 9 named "Ready", resolves to lane 7 and card type 9 |
| Scenarios.DuplicateCardTypeRejected | trac2kanban/__init__.py:110 | two "Ready" card types make unpacking fail with three values |
| Scenarios.MajorBecomesHigh | trac2kanban/__init__.py:162-184 | with `major -> High`, a major ticket 42 becomes a High card with id 42 and URL `.../ticket/42` |

## Left out

- `LeanKitService.call` is not modelled. It does the HTTP request with basic auth, the debug logging (including the 401 message) and the `simplejson` decoding. Each reply is a parameter instead.
- The network fetches in `_get_info`, `get_card_url` and `add_card` are not modelled. The GetBoardIdentifiers and GetCardByExternalId request URLs are not built; the replies to those requests are parameters. For `add_card` the model returns the POST URL and the card, but it does not serialise the card to JSON or set the POST's Content-Length header.
- Replies are typed records. A reply missing a JSON key (`ReplyData`, `Lanes`, `Id`, `Name`, `ReplyCode`) would raise KeyError in Python; the model has no such case.
- The Genshi markup work (`Transformer(...).after(...)`, `tag.a`) is not modelled. The model returns "unchanged" or "insert this (label, href) after the description".
- Trac's `Ticket` loading is not modelled; the persisted tickets are a map from id to fields. For an id with no persisted ticket, Trac raises or `_get_ticket` returns None and `ticket['team']` fails. The model reports both as `TicketNotFound`.
- `req.perm` is not modelled; the permissions held on the ticket are a set parameter.
- The configuration store is not modelled; every key is assumed set. Unset keys are not modelled (Trac then returns `''` or `[]`, and `int('')` for the lane position would raise).
- `int(kanban_lane_position)` is not modelled. The position is an integer already, so the ValueError for non-numeric text is not modelled.
- Ticket ids are natural numbers, as Trac assigns them.
- LeanKit.AddCard: returns a new card record, whereas `add_card` writes `TypeId` into the caller's dict in place; the caller never reads the card again, so nothing observable differs.
- The route prefix is read literally; regex metacharacters in `trac_path_kanban` are not interpreted.
- setup.py is packaging metadata only.

=== FILE: decimal.dfy ===
/** Decimal text of integers, as Python's `"%d" % n`, `str(n)` and `int(s)`
    produce and consume it for the non-negative ids of this system. */
module Decimal {

  /** ASCII digit: without `re.UNICODE`, `\d` is an ASCII digit `[0-9]`. */
  predicate IsDigit(c: char) {
    '0' <= c <= '9'
  }

  predicate IsDigits(s: string) {
    forall i :: 0 <= i < |s| ==> IsDigit(s[i])
  }

  /** The text `"%d"` prints for a natural number: digits, no leading zero
      except for zero itself. */
  predicate IsCanonical(s: string) {
    && |s| > 0
    && IsDigits(s)
    && (s[0] == '0' ==> |s| == 1)
  }

  function DigitValue(c: char): (v: nat)
    requires IsDigit(c)
    ensures v < 10
  {
    c as int - '0' as int
  }

  function DigitChar(v: nat): (c: char)
    requires v < 10
    ensures IsDigit(c) && DigitValue(c) == v
  {
    ('0' as int + v) as char
  }

  lemma DigitCharOfValue(c: char)
    requires IsDigit(c)
    ensures DigitChar(DigitValue(c)) == c
  {
  }

  /** `"%d" % n` for `n >= 0`. */
  function NatToDecimal(n: nat): (s: string)
    ensures IsCanonical(s)
    ensures s[0] == '0' <==> n == 0
    decreases n
  {
    if n < 10 then [DigitChar(n)] else NatToDecimal(n / 10) + [DigitChar(n % 10)]
  }

  /** Digits and minus signs only: the characters of an integer's text. */
  predicate IsSignedDigits(s: string) {
    forall i :: 0 <= i < |s| ==> IsDigit(s[i]) || s[i] == '-'
  }

  /** `str(i)` for any integer: a minus sign before the magnitude. */
  function IntToDecimal(i: int): (s: string)
    ensures |s| > 0 && IsSignedDigits(s)
    ensures s[0] == '-' <==> i < 0
    ensures i >= 0 ==> s == NatToDecimal(i)
    ensures i < 0 ==> s[1..] == NatToDecimal(-i)
  {
    if i < 0 then "-" + NatToDecimal(-i) else NatToDecimal(i)
  }

  /** `int(s)` on a string of ASCII digits (leading zeros allowed). */
  function ParseDecimal(s: string): nat
    requires IsDigits(s)
  {
    if |s| == 0 then 0 else ParseDecimal(s[..|s| - 1]) * 10 + DigitValue(s[|s| - 1])
  }

  /** Printing then parsing gives the number back. */
  lemma {:induction false} ParseNatToDecimal(n: nat)
    ensures ParseDecimal(NatToDecimal(n)) == n
    decreases n
  {
    if n >= 10 {
      var a := NatToDecimal(n / 10);
      var s := a + [DigitChar(n % 10)];
      assert s[..|s| - 1] == a;
      ParseNatToDecimal(n / 10);
    }
  }

  /** A non-empty digit string is worth at least its leading digit. */
  lemma {:induction false} ParseDecimalAtLeastLeading(s: string)
    requires |s| > 0 && IsDigits(s)
    ensures ParseDecimal(s) >= DigitValue(s[0])
    decreases |s|
  {
    if |s| > 1 {
      var a := s[..|s| - 1];
      assert a[0] == s[0];
      ParseDecimalAtLeastLeading(a);
    }
  }

  /** Parsing then printing gives back exactly the canonical texts; a digit
      string with a leading zero comes back without it. */
  lemma {:induction false} NatToDecimalParse(s: string)
    requires IsCanonical(s)
    ensures NatToDecimal(ParseDecimal(s)) == s
    decreases |s|
  {
    var last := s[|s| - 1];
    if |s| == 1 {
      DigitCharOfValue(last);
      assert s == [last];
    } else {
      var a := s[..|s| - 1];
      assert a[0] == s[0];
      ParseDecimalAtLeastLeading(a);
      var n := ParseDecimal(s);
      assert n == ParseDecimal(a) * 10 + DigitValue(last);
      assert n / 10 == ParseDecimal(a) && n % 10 == DigitValue(last);
      NatToDecimalParse(a);
      DigitCharOfValue(last);
      assert s == a + [last];
    }
  }

  /** Two numbers print the same only if they are equal. */
  lemma NatToDecimalInjective(m: nat, n: nat)
    requires NatToDecimal(m) == NatToDecimal(n)
    ensures m == n
  {
    ParseNatToDecimal(m);
    ParseNatToDecimal(n);
  }

  /** Reading `str(i)` back, the sign and then the magnitude, gives `i`. */
  lemma IntToDecimalParse(i: int)
    ensures var s := IntToDecimal(i);
            if s[0] == '-' then IsDigits(s[1..]) && i == -(ParseDecimal(s[1..]) as int)
            else IsDigits(s) && ParseDecimal(s) == i
  {
    if i < 0 {
      ParseNatToDecimal(-i);
    } else {
      ParseNatToDecimal(i);
    }
  }

  /** Two integers print the same only if they are equal. */
  lemma IntToDecimalInjective(i: int, j: int)
    requires IntToDecimal(i) == IntToDecimal(j)
    ensures i == j
  {
    IntToDecimalParse(i);
    IntToDecimalParse(j);
  }
}

=== FILE: leankit.dfy ===
/** The `Board` and `LeanKitService` classes of trac2kanban/__init__.py with
    the HTTP calls taken out: each reply the remote service would send is a
    parameter, and each request the code would send is returned as data. */
module LeanKit {
  import opened Wrappers
  import opened Decimal
  import opened PyDict
  import opened Trac

  /** `ReplyData[0].Lanes[k]` of a GetBoardIdentifiers reply. */
  datatype Lane = Lane(id: int)

  /** `ReplyData[0].CardTypes[k]` of a GetBoardIdentifiers reply. */
  datatype CardType = CardType(id: int, name: string)

  datatype BoardIdentifiers = BoardIdentifiers(lanes: seq<Lane>, cardTypes: seq<CardType>)

  /** The decoded GetBoardIdentifiers reply; only `ReplyData` is read. */
  datatype BoardIdentifiersReply = BoardIdentifiersReply(replyData: seq<BoardIdentifiers>)

  /** The decoded GetCardByExternalId reply; only `ReplyCode` is read. */
  datatype CardLookupReply = CardLookupReply(replyCode: int)

  /** A constructed `Board`: the service base URL, the board id taken from
      configuration and the lane and card-type ids taken from the reply. */
  datatype Board = Board(baseUrl: string, boardId: string, laneId: int, cardTypeId: int)

  /** The card payload built by `create_card`; `None` is JSON `null`. */
  datatype Card = Card(
    title: Option<string>,
    description: Option<string>,
    typeId: Option<int>,
    priority: string,
    size: int,
    isBlocked: bool,
    blockReason: string,
    dueDate: Option<string>,
    externalSystemName: string,
    externalSystemUrl: string,
    tags: string,
    classOfServiceId: Option<int>,
    externalCardId: nat,
    assignedUserIds: seq<int>
  )

  /** The POST that `add_card` sends: its URL and the card in its body. */
  datatype AddCardRequest = AddCardRequest(url: string, card: Card)

  const ExternalSystemName: string := "Trac"

  /** The team-name to board-id mapping `dict(zip(trac_teams, kanban_boards))`. */
  function TeamBoards(config: Config): map<string, string> {
    ZipDict(config.tracTeams, config.kanbanBoards)
  }

  /** The priority translation `dict(zip(trac_priorities, kanban_priorities))`. */
  function Priorities(config: Config): map<string, string> {
    ZipDict(config.tracPriorities, config.kanbanPriorities)
  }

  /** The ids of the card types whose name is one of `names`, in reply order. */
  function MatchingCardTypeIds(types: seq<CardType>, names: seq<string>): (ids: seq<int>)
    ensures forall x :: x in ids ==> exists c :: c in types && c.name in names && c.id == x
  {
    if |types| == 0 then []
    else (if types[0].name in names then [types[0].id] else []) + MatchingCardTypeIds(types[1..], names)
  }

  /** Filtering distributes over concatenation: the matches keep reply order. */
  lemma {:induction false} MatchingAppend(a: seq<CardType>, b: seq<CardType>, names: seq<string>)
    ensures MatchingCardTypeIds(a + b, names) == MatchingCardTypeIds(a, names) + MatchingCardTypeIds(b, names)
    decreases |a|
  {
    if |a| == 0 {
      assert a + b == b;
    } else {
      var ab := a + b;
      assert ab[0] == a[0];
      assert ab[1..] == a[1..] + b;
      var first := if a[0].name in names then [a[0].id] else [];
      assert MatchingCardTypeIds(ab, names) == first + MatchingCardTypeIds(ab[1..], names);
      assert MatchingCardTypeIds(a, names) == first + MatchingCardTypeIds(a[1..], names);
      MatchingAppend(a[1..], b, names);
    }
  }

  /** An id is among the matches exactly when some card type carrying it has
      an allowed name. */
  lemma {:induction false} MatchingMembers(types: seq<CardType>, names: seq<string>, x: int)
    ensures x in MatchingCardTypeIds(types, names) <==>
            exists i :: 0 <= i < |types| && types[i].name in names && types[i].id == x
    decreases |types|
  {
    if |types| > 0 {
      MatchingMembers(types[1..], names, x);
      if exists i :: 1 <= i < |types| && types[i].name in names && types[i].id == x {
        var i :| 1 <= i < |types| && types[i].name in names && types[i].id == x;
        assert types[1..][i - 1] == types[i];
      }
      if exists i :: 0 <= i < |types| - 1 && types[1..][i].name in names && types[1..][i].id == x {
        var i :| 0 <= i < |types| - 1 && types[1..][i].name in names && types[1..][i].id == x;
        assert types[i + 1] == types[1..][i];
      }
    }
  }

  /** With no allowed name in the reply, nothing matches. */
  lemma {:induction false} MatchingNone(types: seq<CardType>, names: seq<string>)
    requires forall i :: 0 <= i < |types| ==> types[i].name !in names
    ensures MatchingCardTypeIds(types, names) == []
    decreases |types|
  {
    if |types| > 0 {
      MatchingNone(types[1..], names);
    }
  }

  /** When exactly one card type has an allowed name, the matches are its id
      alone. */
  lemma MatchingSingle(types: seq<CardType>, names: seq<string>, i: nat)
    requires i < |types| && types[i].name in names
    requires forall j :: 0 <= j < |types| && j != i ==> types[j].name !in names
    ensures MatchingCardTypeIds(types, names) == [types[i].id]
  {
    var pre, post := types[..i], types[i + 1..];
    assert types == pre + ([types[i]] + post);
    MatchingAppend(pre, [types[i]] + post, names);
    MatchingAppend([types[i]], post, names);
    MatchingNone(pre, names);
    assert forall j :: 0 <= j < |post| ==> post[j] == types[i + 1 + j];
    MatchingNone(post, names);
  }

  /** `_parse_info`: the id of the lane at the configured position (Python
      indexing, so a negative position counts from the end) followed by the
      ids of the allowed card types in reply order. */
  function ParseInfo(config: Config, reply: BoardIdentifiersReply): (r: Result<seq<int>, Error>)
    ensures |reply.replyData| == 0 ==> r == Failure(EmptyReplyData)
    ensures |reply.replyData| > 0 ==>
              var data := reply.replyData[0];
              var pos := config.kanbanLanePosition;
              && (r.Success? <==> -|data.lanes| <= pos < |data.lanes|)
              && (r.Failure? ==> r.error == LanePositionOutOfRange(pos, |data.lanes|))
              && (r.Success? ==>
                    && |r.value| == 1 + |MatchingCardTypeIds(data.cardTypes, config.kanbanCardType)|
                    && r.value[0] == (if pos >= 0 then data.lanes[pos] else data.lanes[|data.lanes| + pos]).id
                    && r.value[1..] == MatchingCardTypeIds(data.cardTypes, config.kanbanCardType))
  {
    if |reply.replyData| == 0 then Failure(EmptyReplyData)
    else
      var data := reply.replyData[0];
      match PyIndex(data.lanes, config.kanbanLanePosition)
      case None => Failure(LanePositionOutOfRange(config.kanbanLanePosition, |data.lanes|))
      case Some(lane) => Success([lane.id] + MatchingCardTypeIds(data.cardTypes, config.kanbanCardType))
  }

  /** `Board.__init__`: the board id for the team, then `_parse_info`'s list
      unpacked into exactly two names, lane id and card type id. */
  function NewBoard(config: Config, team: string, reply: BoardIdentifiersReply): (r: Result<Board, Error>)
    ensures team !in TeamBoards(config) ==> r == Failure(UnknownTeam(team))
    ensures r.Success? ==>
              && team in TeamBoards(config)
              && r.value.boardId == TeamBoards(config)[team]
              && r.value.baseUrl == config.kanbanBaseUrl
              && ParseInfo(config, reply) == Success([r.value.laneId, r.value.cardTypeId])
    ensures team in TeamBoards(config) && ParseInfo(config, reply).Failure? ==>
              r == Failure(ParseInfo(config, reply).error)
    ensures team in TeamBoards(config) && ParseInfo(config, reply).Success? ==>
              (r.Success? <==> |MatchingCardTypeIds(reply.replyData[0].cardTypes, config.kanbanCardType)| == 1)
  {
    var boards := TeamBoards(config);
    if team !in boards then Failure(UnknownTeam(team))
    else
      var info :- ParseInfo(config, reply);
      if |info| != 2 then Failure(CardTypeUnpack(|info|))
      else
        assert info == [info[0], info[1]];
        Success(Board(config.kanbanBaseUrl, boards[team], info[0], info[1]))
  }

  /** Two card types with allowed names give at least two matches. */
  lemma MatchingTwo(types: seq<CardType>, names: seq<string>, i: nat, j: nat)
    requires i < j < |types|
    requires types[i].name in names && types[j].name in names
    ensures |MatchingCardTypeIds(types, names)| >= 2
  {
    var pre, post := types[..j], types[j..];
    assert types == pre + post;
    MatchingAppend(pre, post, names);
    assert pre[i] == types[i];
    MatchingMembers(pre, names, types[i].id);
    assert post[0] == types[j];
  }

  /** Card type `i` is the only one of `types` with an allowed name. */
  predicate OnlyAllowedAt(types: seq<CardType>, names: seq<string>, i: int) {
    && 0 <= i < |types|
    && types[i].name in names
    && forall j :: 0 <= j < |types| && j != i ==> types[j].name !in names
  }

  /** A single match comes from a card type that is the only allowed one. */
  lemma MatchingOneHasSingle(types: seq<CardType>, names: seq<string>)
    requires |MatchingCardTypeIds(types, names)| == 1
    ensures exists i :: OnlyAllowedAt(types, names, i)
  {
    var ids := MatchingCardTypeIds(types, names);
    MatchingMembers(types, names, ids[0]);
    var i :| 0 <= i < |types| && types[i].name in names && types[i].id == ids[0];
    forall j | 0 <= j < |types| && j != i
      ensures types[j].name !in names
    {
      if types[j].name in names {
        if i < j { MatchingTwo(types, names, i, j); } else { MatchingTwo(types, names, j, i); }
      }
    }
    assert OnlyAllowedAt(types, names, i);
  }

  /** Exactly one match means exactly one card type with an allowed name. */
  lemma MatchingOneIffSingle(types: seq<CardType>, names: seq<string>)
    ensures |MatchingCardTypeIds(types, names)| == 1 <==> exists i :: OnlyAllowedAt(types, names, i)
  {
    if exists i :: OnlyAllowedAt(types, names, i) {
      var i :| OnlyAllowedAt(types, names, i);
      MatchingSingle(types, names, i);
    }
    if |MatchingCardTypeIds(types, names)| == 1 {
      MatchingOneHasSingle(types, names);
    }
  }

  /** Construction succeeds only with exactly one allowed card type in the
      reply, and the board then carries that card type's id; none or several
      make the two-name unpacking fail. */
  lemma NewBoardCardType(config: Config, team: string, reply: BoardIdentifiersReply)
    requires team in TeamBoards(config)
    requires ParseInfo(config, reply).Success?
    ensures var types := reply.replyData[0].cardTypes;
            var names := config.kanbanCardType;
            && (NewBoard(config, team, reply).Success? <==> exists i :: OnlyAllowedAt(types, names, i))
            && (NewBoard(config, team, reply).Success? ==>
                  exists i :: 0 <= i < |types| && types[i].name in names &&
                    types[i].id == NewBoard(config, team, reply).value.cardTypeId)
            && (NewBoard(config, team, reply).Failure? ==>
                  NewBoard(config, team, reply).error == CardTypeUnpack(1 + |MatchingCardTypeIds(types, names)|))
  {
    var types := reply.replyData[0].cardTypes;
    var names := config.kanbanCardType;
    MatchingOneIffSingle(types, names);
    var r := NewBoard(config, team, reply);
    if r.Success? {
      var ids := MatchingCardTypeIds(types, names);
      assert ids == [r.value.cardTypeId];
      MatchingMembers(types, names, r.value.cardTypeId);
    }
  }

  /** `get_board`: `None` when the team is not a key of the team mapping (a
      ticket without a team field included), otherwise the board that
      `Board.__init__` constructs for the team, or the error it raises. */
  function GetBoard(config: Config, team: Option<string>, reply: BoardIdentifiersReply): (r: Result<Option<Board>, Error>)
    ensures r == Success(None) <==> team.None? || team.value !in TeamBoards(config)
    ensures team.Some? && team.value in TeamBoards(config) ==>
              r == (match NewBoard(config, team.value, reply)
                    case Success(b) => Success(Some(b))
                    case Failure(e) => Failure(e))
    ensures r.Success? && r.value.Some? ==>
              team.Some? && team.value in TeamBoards(config) &&
              r.value.value.boardId == TeamBoards(config)[team.value]
    ensures r.Failure? ==> !r.error.UnknownTeam?
  {
    if team.None? || team.value !in TeamBoards(config) then Success(None)
    else
      var board :- NewBoard(config, team.value, reply);
      Success(Some(board))
  }

  /** Position `i` is the last place where `team` is paired with a board. */
  predicate IsLastTeamPosition(config: Config, team: string, i: int) {
    && 0 <= i < |config.tracTeams|
    && i < |config.kanbanBoards|
    && config.tracTeams[i] == team
    && forall j :: i < j < |config.tracTeams| && j < |config.kanbanBoards| ==> config.tracTeams[j] != team
  }

  /** The team has no board exactly when it does not occur among the team
      names that have a board name at the same position. Otherwise `get_board`
      yields the board `Board.__init__` builds (or its error), and that board
      has the id paired with the team's last such occurrence. */
  lemma GetBoardTeams(config: Config, team: string, reply: BoardIdentifiersReply)
    ensures GetBoard(config, Some(team), reply) == Success(None) <==>
              !exists i :: 0 <= i < |config.tracTeams| && i < |config.kanbanBoards| && config.tracTeams[i] == team
    ensures forall i :: IsLastTeamPosition(config, team, i) ==>
              && GetBoard(config, Some(team), reply) ==
                   (match NewBoard(config, team, reply)
                    case Success(b) => Success(Some(b))
                    case Failure(e) => Failure(e))
              && (NewBoard(config, team, reply).Success? ==>
                    NewBoard(config, team, reply).value.boardId == config.kanbanBoards[i])
  {
    ZipDictKeys(config.tracTeams, config.kanbanBoards, team);
    forall i | IsLastTeamPosition(config, team, i)
      ensures && GetBoard(config, Some(team), reply) ==
                   (match NewBoard(config, team, reply)
                    case Success(b) => Success(Some(b))
                    case Failure(e) => Failure(e))
              && (NewBoard(config, team, reply).Success? ==>
                    NewBoard(config, team, reply).value.boardId == config.kanbanBoards[i])
    {
      ZipDictValue(config.tracTeams, config.kanbanBoards, i);
    }
  }

  /** `create_card`: the payload for a ticket. The priority is translated
      through the priority mapping; a value that is not a key (or a ticket
      without the priority field) raises. */
  function CreateCard(config: Config, ticket: Ticket): (r: Result<Card, Error>)
    ensures var p := ticket.Field(config.tracPriorityField);
            r.Success? <==> p.Some? && p.value in Priorities(config)
    ensures r.Failure? ==> r.error == UnknownPriority(ticket.Field(config.tracPriorityField))
    ensures r.Success? ==>
              var c := r.value;
              && c.priority == Priorities(config)[ticket.Field(config.tracPriorityField).value]
              && c.title == ticket.Field("summary")
              && c.description == ticket.Field("description")
              && c.externalCardId == ticket.id
              && c.externalSystemName == "Trac"
              && c.externalSystemUrl == config.tracBaseUrl + "/" + config.tracPathTicket + "/" + NatToDecimal(ticket.id)
              && c.typeId.None? && c.size == 1 && !c.isBlocked && c.blockReason == ""
              && c.dueDate.None? && c.tags == "" && c.classOfServiceId.None? && c.assignedUserIds == []
  {
    var priorities := Priorities(config);
    var p := ticket.Field(config.tracPriorityField);
    if p.None? || p.value !in priorities then Failure(UnknownPriority(p))
    else
      Success(Card(
        title := ticket.Field("summary"),
        description := ticket.Field("description"),
        typeId := None,
        priority := priorities[p.value],
        size := 1,
        isBlocked := false,
        blockReason := "",
        dueDate := None,
        externalSystemName := ExternalSystemName,
        externalSystemUrl := config.tracBaseUrl + "/" + config.tracPathTicket + "/" + NatToDecimal(ticket.id),
        tags := "",
        classOfServiceId := None,
        externalCardId := ticket.id,
        assignedUserIds := []))
  }

  /** The card's priority is the Kanban name paired with the last occurrence
      of the ticket's priority among the configured Trac priorities. */
  lemma CreateCardPriority(config: Config, ticket: Ticket, i: nat)
    requires i < |config.tracPriorities| && i < |config.kanbanPriorities|
    requires ticket.Field(config.tracPriorityField) == Some(config.tracPriorities[i])
    requires forall j :: i < j < |config.tracPriorities| && j < |config.kanbanPriorities| ==>
               config.tracPriorities[j] != config.tracPriorities[i]
    ensures CreateCard(config, ticket).Success?
    ensures CreateCard(config, ticket).value.priority == config.kanbanPriorities[i]
  {
    ZipDictValue(config.tracPriorities, config.kanbanPriorities, i);
  }

  /** The card's external URL names the ticket: below the Trac base URL and
      ticket path, its last segment reads back as the ticket id. */
  lemma CreateCardExternalUrl(config: Config, ticket: Ticket)
    requires CreateCard(config, ticket).Success?
    ensures var url := CreateCard(config, ticket).value.externalSystemUrl;
            var prefix := config.tracBaseUrl + "/" + config.tracPathTicket;
            var d := url[|prefix| + 1..];
            && url[..|prefix| + 1] == prefix + "/"
            && IsCanonical(d)
            && ParseDecimal(d) == ticket.id
  {
    var prefix := config.tracBaseUrl + "/" + config.tracPathTicket;
    var url := prefix + "/" + NatToDecimal(ticket.id);
    assert url[|prefix| + 1..] == NatToDecimal(ticket.id);
    assert url[..|prefix| + 1] == prefix + "/";
    ParseNatToDecimal(ticket.id);
  }

  /** The part of the AddCard endpoint that names the board. */
  function AddCardLanePrefix(board: Board): string {
    board.baseUrl + "/Kanban/Api/Board/" + board.boardId + "/AddCard/Lane/"
  }

  /** The AddCard endpoint for the board's lane at `position`:
      `<base>/Kanban/Api/Board/<board>/AddCard/Lane/<lane>/Position/<position>`. */
  function AddCardUrl(board: Board, position: int): (url: string)
    ensures var head := AddCardLanePrefix(board);
            && |url| > |head|
            && url[..|head|] == head
            && url[|head|..] == IntToDecimal(board.laneId) + "/Position/" + IntToDecimal(position)
  {
    var head := AddCardLanePrefix(board);
    var url := head + IntToDecimal(board.laneId) + "/Position/" + IntToDecimal(position);
    assert url[..|head|] == head;
    assert url[|head|..] == IntToDecimal(board.laneId) + "/Position/" + IntToDecimal(position);
    url
  }

  /** The URL pins the board's lane and the position: on the same board, two
      different lanes, or two different positions, give different URLs. */
  lemma AddCardUrlInjective(b1: Board, b2: Board, p1: int, p2: int)
    requires b1.baseUrl == b2.baseUrl && b1.boardId == b2.boardId
    requires AddCardUrl(b1, p1) == AddCardUrl(b2, p2)
    ensures b1.laneId == b2.laneId && p1 == p2
  {
    var head := AddCardLanePrefix(b1);
    assert AddCardLanePrefix(b2) == head;
    var t1 := IntToDecimal(b1.laneId) + "/Position/" + IntToDecimal(p1);
    var t2 := IntToDecimal(b2.laneId) + "/Position/" + IntToDecimal(p2);
    assert t1 == AddCardUrl(b1, p1)[|head|..] == t2;
    SegmentsEqual(IntToDecimal(b1.laneId), IntToDecimal(p1), IntToDecimal(b2.laneId), IntToDecimal(p2));
    IntToDecimalInjective(b1.laneId, b2.laneId);
    IntToDecimalInjective(p1, p2);
  }

  /** The index of the first '/' in `s`, or `|s|` when there is none. */
  function SlashIndex(s: string): (k: nat)
    ensures k <= |s|
  {
    if |s| == 0 || s[0] == '/' then 0 else 1 + SlashIndex(s[1..])
  }

  /** After an integer's text, the first '/' is the one that follows it. */
  lemma {:induction false} SlashIndexAfterSigned(a: string, t: string)
    requires IsSignedDigits(a) && |t| > 0 && t[0] == '/'
    ensures SlashIndex(a + t) == |a|
    decreases |a|
  {
    if |a| == 0 {
      assert a + t == t;
    } else {
      assert (a + t)[0] == a[0];
      assert (a + t)[1..] == a[1..] + t;
      SlashIndexAfterSigned(a[1..], t);
    }
  }

  /** Two `<lane>/Position/<position>` tails are equal only segment by
      segment, since integer texts hold no '/'. */
  lemma SegmentsEqual(a1: string, c1: string, a2: string, c2: string)
    requires IsSignedDigits(a1) && IsSignedDigits(a2)
    requires a1 + "/Position/" + c1 == a2 + "/Position/" + c2
    ensures a1 == a2 && c1 == c2
  {
    var s1 := a1 + "/Position/" + c1;
    var s2 := a2 + "/Position/" + c2;
    assert s1 == a1 + ("/Position/" + c1);
    assert s2 == a2 + ("/Position/" + c2);
    SlashIndexAfterSigned(a1, "/Position/" + c1);
    SlashIndexAfterSigned(a2, "/Position/" + c2);
    assert a1 == s1[..|a1|] == s2[..|a2|] == a2;
    assert c1 == s1[|a1| + 10..] == s2[|a2| + 10..] == c2;
  }

  /** `add_card`: stamps the card's type with the board's card type and
      addresses the POST to the board's lane; position 0 is the default. */
  function AddCard(board: Board, card: Card, position: int := 0): (r: AddCardRequest)
    ensures r.card.typeId == Some(board.cardTypeId)
    ensures r.card.(typeId := card.typeId) == card
    ensures r.url == AddCardUrl(board, position)
  {
    AddCardRequest(AddCardUrl(board, position), card.(typeId := Some(board.cardTypeId)))
  }

  /** The prior type of a card makes no difference to what is sent, so
      stamping twice is the same as stamping once. */
  lemma AddCardIgnoresPriorType(board: Board, c1: Card, c2: Card, position: int)
    requires c1.(typeId := None) == c2.(typeId := None)
    ensures AddCard(board, c1, position) == AddCard(board, c2, position)
    ensures AddCard(board, AddCard(board, c1, position).card, position) == AddCard(board, c1, position)
  {
    assert c1.(typeId := Some(board.cardTypeId)) == c1.(typeId := None).(typeId := Some(board.cardTypeId));
    assert c2.(typeId := Some(board.cardTypeId)) == c2.(typeId := None).(typeId := Some(board.cardTypeId));
  }

  /** The request for the default position ends with position 0. */
  lemma AddCardDefaultPosition(board: Board, card: Card)
    ensures var url := AddCard(board, card).url;
            |url| > 11 && url[|url| - 11..] == "/Position/0"
  {
    var url := AddCard(board, card).url;
    var head := AddCardLanePrefix(board);
    assert IntToDecimal(0) == "0";
    assert url == head + url[|head|..];
  }

  /** The board page on the Kanban site. */
  function BoardViewUrl(board: Board): (url: string)
    ensures |url| > 0
  {
    board.baseUrl + "/Boards/View/" + board.boardId
  }

  /** On one service, the view URL names the board: different board ids
      give different URLs. */
  lemma BoardViewUrlInjective(b1: Board, b2: Board)
    requires b1.baseUrl == b2.baseUrl
    requires BoardViewUrl(b1) == BoardViewUrl(b2)
    ensures b1.boardId == b2.boardId
  {
    var head := b1.baseUrl + "/Boards/View/";
    assert BoardViewUrl(b1) == head + b1.boardId;
    assert BoardViewUrl(b2) == head + b2.boardId;
    assert b1.boardId == BoardViewUrl(b1)[|head|..] == BoardViewUrl(b2)[|head|..] == b2.boardId;
  }

  /** `get_card_url`: given the reply to the lookup of `externalId`, the
      board's view URL when the reply code is exactly 200, else `None`. */
  function GetCardUrl(board: Board, externalId: nat, reply: CardLookupReply): (r: Option<string>)
    ensures r.Some? <==> reply.replyCode == 200
    ensures r.Some? ==> r.value == BoardViewUrl(board)
  {
    if reply.replyCode == 200 then Some(BoardViewUrl(board)) else None
  }

  /** The URL returned is the board's, not the card's: it does not depend
      on the external id looked up. */
  lemma GetCardUrlIgnoresExternalId(board: Board, id1: nat, id2: nat, reply: CardLookupReply)
    ensures GetCardUrl(board, id1, reply) == GetCardUrl(board, id2, reply)
  {
  }
}

=== FILE: plugin.dfy ===
/** The `Trac2KanbanPlugin` component of trac2kanban/__init__.py: the
    render-time decision whether to add the Kanban link to a ticket page, and
    the activation handler that creates the card and redirects. The remote
    replies and the ticket store are parameters. */
module Plugin {
  import opened Wrappers
  import opened Decimal
  import opened Route
  import opened Trac
  import opened LeanKit

  const LabelNew: string := "Kanbanize!"
  const LabelExisting: string := "Baby on Board"

  /** The page whose stream is filtered. */
  const TicketTemplate: string := "ticket.html"

  /** The ticket field naming the team; it is fixed in the code, not read
      from configuration. */
  const TeamField: string := "team"

  /** The anchor `tag.a(label, href=url)`. */
  datatype Link = Link(text: string, href: string)

  /** What `filter_stream` does to the page stream: return it untouched, or
      add the link after the ticket description block. */
  datatype StreamOutcome = Unchanged | InsertAfterDescription(link: Link)

  /** A response written through the request object. */
  datatype Response = Response(status: int, headers: seq<(string, string)>, body: string)

  /** The outcome of a successful activation: the AddCard POST and the
      response sent to the browser. */
  datatype Activation = Activation(post: AddCardRequest, response: Response)

  /** The first value sent for header `name`, if any. */
  function HeaderValue(headers: seq<(string, string)>, name: string): Option<string> {
    if |headers| == 0 then None
    else if headers[0].0 == name then Some(headers[0].1)
    else HeaderValue(headers[1..], name)
  }

  /** The local action URL for a ticket: `"%s/%d" % (trac_path_kanban, id)`. */
  function ActionUrl(config: Config, id: nat): string {
    config.tracPathKanban + "/" + NatToDecimal(id)
  }

  /** `_kanban_form`: "Baby on Board" linking to the board when the lookup
      reply reports the card, "Kanbanize!" linking to the action URL
      otherwise. The board URL is never empty, so Python's truth test on it
      is a test for `None`. */
  function KanbanForm(config: Config, board: Board, ticket: Ticket, reply: CardLookupReply): (link: Link)
    ensures reply.replyCode == 200 ==> link == Link(LabelExisting, BoardViewUrl(board))
    ensures reply.replyCode != 200 ==> link == Link(LabelNew, ActionUrl(config, ticket.id))
  {
    var url := GetCardUrl(board, ticket.id, reply);
    if url.Some? && |url.value| > 0 then Link(LabelExisting, url.value)
    else Link(LabelNew, ActionUrl(config, ticket.id))
  }

  /** The "Kanbanize!" link leads to a path the action route accepts, and the
      route yields the ticket's own id. */
  lemma KanbanizeLinkRoutesBack(config: Config, board: Board, ticket: Ticket, reply: CardLookupReply)
    requires reply.replyCode != 200
    ensures var link := KanbanForm(config, board, ticket, reply);
            var m := MatchRequest(config.tracPathKanban, link.href);
            link.text == LabelNew && m.Some? && ParseDecimal(m.value) == ticket.id
  {
    RouteOfTicketId(config.tracPathKanban, ticket.id);
  }

  /** `_redirect_to`: status 302, exactly two headers, `Location` with the
      URL and then `Content-Length` matching the empty body. */
  function RedirectTo(url: string): (r: Response)
    ensures r.status == 302
    ensures |r.headers| == 2 && r.headers[0].0 == "Location" && r.headers[1].0 == "Content-Length"
    ensures HeaderValue(r.headers, "Location") == Some(url)
    ensures HeaderValue(r.headers, "Content-Length") == Some(NatToDecimal(|r.body|))
    ensures r.body == ""
  {
    Response(302, [("Location", url), ("Content-Length", IntToDecimal(0))], "")
  }

  /** Whether the page-level guards let `filter_stream` go on to the board:
      the ticket page, a persisted ticket, and the configured permission. */
  predicate PageQualifies(config: Config, filename: string, ticket: Option<Ticket>, perms: set<string>) {
    && filename == TicketTemplate
    && ticket.Some?
    && ticket.value.persisted
    && config.permission in perms
  }

  /** `filter_stream`. `perms` are the permissions the request holds on the
      ticket's resource; `boardReply` and `cardReply` are the service's
      replies to GetBoardIdentifiers and GetCardByExternalId. */
  function FilterStream(config: Config, filename: string, ticket: Option<Ticket>, perms: set<string>,
                        boardReply: BoardIdentifiersReply, cardReply: CardLookupReply): (r: Result<StreamOutcome, Error>)
    ensures !PageQualifies(config, filename, ticket, perms) ==> r == Success(Unchanged)
    ensures PageQualifies(config, filename, ticket, perms) ==>
              var board := GetBoard(config, ticket.value.Field(TeamField), boardReply);
              && (board == Success(None) ==> r == Success(Unchanged))
              && (board.Failure? ==> r == Failure(board.error))
              && (board.Success? && board.value.Some? ==>
                    r == Success(InsertAfterDescription(KanbanForm(config, board.value.value, ticket.value, cardReply))))
  {
    if filename != TicketTemplate then Success(Unchanged)
    else if ticket.None? || !ticket.value.persisted || config.permission !in perms then Success(Unchanged)
    else
      var board :- GetBoard(config, ticket.value.Field(TeamField), boardReply);
      if board.None? then Success(Unchanged)
      else Success(InsertAfterDescription(KanbanForm(config, board.value, ticket.value, cardReply)))
  }

  /** The page is left as it is exactly when a guard fails or the ticket's
      team has no board; otherwise (unless board construction raises) the
      link is added, with the label the card lookup decides. */
  lemma FilterStreamUnchanged(config: Config, filename: string, ticket: Option<Ticket>, perms: set<string>,
                              boardReply: BoardIdentifiersReply, cardReply: CardLookupReply)
    ensures var r := FilterStream(config, filename, ticket, perms, boardReply, cardReply);
            r == Success(Unchanged) <==>
              (|| !PageQualifies(config, filename, ticket, perms)
               || ticket.value.Field(TeamField).None?
               || ticket.value.Field(TeamField).value !in TeamBoards(config))
    ensures var r := FilterStream(config, filename, ticket, perms, boardReply, cardReply);
            r.Success? && r.value.InsertAfterDescription? ==>
              (r.value.link.text == LabelExisting <==> cardReply.replyCode == 200)
  {
  }

  /** `process_request`. `tickets` holds the persisted tickets' fields by
      id; `boardReply` is the GetBoardIdentifiers reply for the team's board.
      Unlike the render flow, a missing ticket or a team without a board is
      not guarded against and ends in an error. */
  function ProcessRequest(config: Config, path: string, tickets: map<nat, map<string, string>>,
                          boardReply: BoardIdentifiersReply): (r: Result<Activation, Error>)
    ensures MatchRequest(config.tracPathKanban, path).None? ==> r == Failure(TicketNotFound)
    ensures var digits := MatchRequest(config.tracPathKanban, path);
            digits.Some? && ParseDecimal(digits.value) !in tickets ==> r == Failure(TicketNotFound)
    ensures var digits := MatchRequest(config.tracPathKanban, path);
            digits.Some? && ParseDecimal(digits.value) in tickets ==>
              var id := ParseDecimal(digits.value);
              var ticket := Ticket(id, true, tickets[id]);
              var board := GetBoard(config, ticket.Field(TeamField), boardReply);
              var card := CreateCard(config, ticket);
              && (board.Failure? ==> r == Failure(board.error))
              && (board.Success? && card.Failure? ==> r == Failure(card.error))
              && (board == Success(None) && card.Success? ==> r == Failure(NoBoard))
              && (board.Success? && board.value.Some? && card.Success? ==>
                    r == Success(Activation(AddCard(board.value.value, card.value),
                                            RedirectTo(config.tracPathTicket + "/" + NatToDecimal(id)))))
    ensures r.Success? ==>
              var digits := MatchRequest(config.tracPathKanban, path);
              && digits.Some?
              && ParseDecimal(digits.value) in tickets
              && r.value.response == RedirectTo(config.tracPathTicket + "/" + NatToDecimal(ParseDecimal(digits.value)))
              && r.value.post.card.externalCardId == ParseDecimal(digits.value)
  {
    var digits := ParseTicketId(config.tracPathKanban, path);
    if digits.None? then Failure(TicketNotFound)
    else
      var id := ParseDecimal(digits.value);
      if id !in tickets then Failure(TicketNotFound)
      else
        var ticket := Ticket(id, true, tickets[id]);
        var board :- GetBoard(config, ticket.Field(TeamField), boardReply);
        var card :- CreateCard(config, ticket);
        if board.None? then Failure(NoBoard)
        else
          var post := AddCard(board.value, card);
          Success(Activation(post, RedirectTo(config.tracPathTicket + "/" + NatToDecimal(ticket.id))))
  }

  /** A requested id with no persisted ticket, or a ticket whose team has no
      board, makes activation fail rather than redirect. */
  lemma ProcessRequestUnguarded(config: Config, path: string, tickets: map<nat, map<string, string>>,
                                boardReply: BoardIdentifiersReply)
    requires MatchRequest(config.tracPathKanban, path).Some?
    ensures var id := ParseDecimal(MatchRequest(config.tracPathKanban, path).value);
            && (id !in tickets ==> ProcessRequest(config, path, tickets, boardReply) == Failure(TicketNotFound))
            && (id in tickets && Ticket(id, true, tickets[id]).Field(TeamField).None? ==>
                  ProcessRequest(config, path, tickets, boardReply).Failure?)
            && (id in tickets && (TeamField in tickets[id] && tickets[id][TeamField] !in TeamBoards(config)) ==>
                  ProcessRequest(config, path, tickets, boardReply).Failure?)
  {
  }

  /** A successful activation posts `create_card`'s card for the requested
      ticket, stamped with the board's card type, to position 0 of the
      board's lane, and redirects to that id's ticket page. An id written
      with leading zeros is redirected to its canonical form. */
  lemma ProcessRequestSuccess(config: Config, path: string, tickets: map<nat, map<string, string>>,
                              boardReply: BoardIdentifiersReply)
    requires ProcessRequest(config, path, tickets, boardReply).Success?
    ensures var a := ProcessRequest(config, path, tickets, boardReply).value;
            var d := MatchRequest(config.tracPathKanban, path).value;
            var id := ParseDecimal(d);
            var board := GetBoard(config, Some(tickets[id][TeamField]), boardReply).value.value;
            && TeamField in tickets[id]
            && CreateCard(config, Ticket(id, true, tickets[id])).Success?
            && a.post.card.(typeId := None) == CreateCard(config, Ticket(id, true, tickets[id])).value
            && a.post.card.typeId == Some(board.cardTypeId)
            && a.post.url == AddCardUrl(board, 0)
            && a.response.status == 302
            && a.response.body == ""
            && HeaderValue(a.response.headers, "Location") == Some(config.tracPathTicket + "/" + NatToDecimal(id))
            && (IsCanonical(d) ==> NatToDecimal(id) == d)
  {
    var d := MatchRequest(config.tracPathKanban, path).value;
    var id := ParseDecimal(d);
    if IsCanonical(d) {
      NatToDecimalParse(d);
    }
  }
}

=== FILE: pydict.dfy ===
/** The Python built-ins the configuration layer relies on: `zip` over two
    lists, `dict` over a list of pairs, and list indexing with negative
    positions. */
module PyDict {
  import opened Wrappers

  /** `zip(ks, vs)`: pairs up to the length of the shorter list. */
  function Zip<K, V>(ks: seq<K>, vs: seq<V>): (ps: seq<(K, V)>)
    ensures |ps| == if |ks| < |vs| then |ks| else |vs|
    ensures forall i :: 0 <= i < |ps| ==> ps[i] == (ks[i], vs[i])
  {
    if |ks| == 0 || |vs| == 0 then [] else [(ks[0], vs[0])] + Zip(ks[1..], vs[1..])
  }

  /** `dict(ps)`: pairs are inserted in order, so a later pair with the same
      key replaces the value of an earlier one. */
  function DictOf<K(==), V>(ps: seq<(K, V)>): (d: map<K, V>)
    ensures d.Keys == set i | 0 <= i < |ps| :: ps[i].0
  {
    if |ps| == 0 then map[]
    else
      var init := ps[..|ps| - 1];
      var d := DictOf(init)[ps[|ps| - 1].0 := ps[|ps| - 1].1];
      assert forall i :: 0 <= i < |init| ==> init[i] == ps[i];
      d
  }

  /** The position of the last pair with key `k`, or -1: an independent
      reading of which pair `dict` keeps. */
  function LastIndexOf<K(==), V>(ps: seq<(K, V)>, k: K): (r: int)
    ensures -1 <= r < |ps|
    ensures r >= 0 ==> ps[r].0 == k && forall j :: r < j < |ps| ==> ps[j].0 != k
    ensures r < 0 ==> forall j :: 0 <= j < |ps| ==> ps[j].0 != k
  {
    if |ps| == 0 then -1
    else if ps[|ps| - 1].0 == k then |ps| - 1
    else LastIndexOf(ps[..|ps| - 1], k)
  }

  function Get<K(==), V>(m: map<K, V>, k: K): Option<V> {
    if k in m then Some(m[k]) else None
  }

  /** Looking a key up in `dict(ps)` yields the value of its last pair. */
  lemma {:induction false} DictOfLastWins<K, V>(ps: seq<(K, V)>, k: K)
    ensures var i := LastIndexOf(ps, k);
            Get(DictOf(ps), k) == if i < 0 then None else Some(ps[i].1)
  {
    if |ps| > 0 {
      var init := ps[..|ps| - 1];
      if ps[|ps| - 1].0 != k {
        DictOfLastWins(init, k);
      }
    }
  }

  /** `dict(zip(ks, vs))`, the shape of every mapping the configuration
      builds from two parallel lists. */
  function ZipDict<K(==), V>(ks: seq<K>, vs: seq<V>): map<K, V> {
    DictOf(Zip(ks, vs))
  }

  /** A key is present exactly when it occurs among the keys that `zip`
      keeps, i.e. before the shorter list runs out. */
  lemma ZipDictKeys<K, V>(ks: seq<K>, vs: seq<V>, k: K)
    ensures k in ZipDict(ks, vs) <==> exists i :: 0 <= i < |ks| && i < |vs| && ks[i] == k
  {
    var ps := Zip(ks, vs);
    if k in ZipDict(ks, vs) {
      var i :| 0 <= i < |ps| && ps[i].0 == k;
      assert ps[i] == (ks[i], vs[i]);
    }
    if exists i :: 0 <= i < |ks| && i < |vs| && ks[i] == k {
      var i :| 0 <= i < |ks| && i < |vs| && ks[i] == k;
      assert ps[i].0 == k;
    }
  }

  /** The value for a key is the one paired with its last occurrence among
      the zipped keys: a later duplicate wins. */
  lemma ZipDictValue<K, V>(ks: seq<K>, vs: seq<V>, i: nat)
    requires i < |ks| && i < |vs|
    requires forall j :: i < j < |ks| && j < |vs| ==> ks[j] != ks[i]
    ensures ks[i] in ZipDict(ks, vs) && ZipDict(ks, vs)[ks[i]] == vs[i]
  {
    var ps := Zip(ks, vs);
    DictOfLastWins(ps, ks[i]);
    var l := LastIndexOf(ps, ks[i]);
    assert ps[i].0 == ks[i];
    assert l == i;
  }

  /** With distinct keys, every key maps to the value at its own position. */
  lemma ZipDictDistinct<K, V>(ks: seq<K>, vs: seq<V>)
    requires |ks| <= |vs|
    requires forall i, j :: 0 <= i < j < |ks| ==> ks[i] != ks[j]
    ensures forall i :: 0 <= i < |ks| ==> ks[i] in ZipDict(ks, vs) && ZipDict(ks, vs)[ks[i]] == vs[i]
  {
    forall i | 0 <= i < |ks|
      ensures ks[i] in ZipDict(ks, vs) && ZipDict(ks, vs)[ks[i]] == vs[i]
    {
      ZipDictValue(ks, vs, i);
    }
  }

  /** `s[i]` on a Python list: a negative `i` counts from the end; an index
      outside `-len(s) .. len(s) - 1` raises `IndexError` (here `None`). */
  function PyIndex<T>(s: seq<T>, i: int): (r: Option<T>)
    ensures r.Some? <==> -|s| <= i < |s|
    ensures 0 <= i < |s| ==> r == Some(s[i])
  {
    if 0 <= i < |s| then Some(s[i])
    else if -|s| <= i < 0 then Some(s[|s| + i])
    else None
  }

  /** A negative index names the same element as its non-negative
      counterpart `len(s) + i`. */
  lemma PyIndexNegative<T>(s: seq<T>, i: int)
    requires -|s| <= i < 0
    ensures PyIndex(s, i) == PyIndex(s, |s| + i)
  {
  }
}

=== FILE: route.dfy ===
/** The action route `^<trac_path_kanban>/(?P<ticket_id>\d+)$` of
    trac2kanban/__init__.py, matched with Python 2's `re.match`.

    Python semantics modelled: without `re.UNICODE`, `\d` is an ASCII digit
    `[0-9]`; `$` without `re.MULTILINE` matches at the
    end of the text and also just before one final newline. The configured
    prefix is interpolated into the pattern unescaped; the model reads it as
    literal text, which is exact when it holds no regular-expression
    metacharacters. */
module Route {
  import opened Wrappers
  import opened Decimal

  /** `path` is the route for ticket digits `d`: the prefix, a slash, one or
      more digits, and at most one trailing newline. */
  ghost predicate IsRoutePath(prefix: string, path: string, d: string) {
    && |d| > 0
    && IsDigits(d)
    && (path == prefix + "/" + d || path == prefix + "/" + d + "\n")
  }

  /** `_parse_ticket_id`: the `ticket_id` group of the route, or `None`. */
  function ParseTicketId(prefix: string, path: string): (r: Option<string>)
    ensures r.Some? ==> IsRoutePath(prefix, path, r.value)
  {
    var head := prefix + "/";
    if |path| < |head| || path[..|head|] != head then None
    else
      var tail := path[|head|..];
      var digits := if |tail| > 0 && tail[|tail| - 1] == '\n' then tail[..|tail| - 1] else tail;
      if |digits| > 0 && IsDigits(digits) then
        assert path == head + tail;
        assert tail != digits ==> tail == digits + "\n";
        Some(digits)
      else None
  }

  /** Every route path is recognised, with exactly its digits. */
  lemma ParseTicketIdComplete(prefix: string, path: string, d: string)
    requires IsRoutePath(prefix, path, d)
    ensures ParseTicketId(prefix, path) == Some(d)
  {
    var head := prefix + "/";
    assert path[..|head|] == head;
    var tail := path[|head|..];
    if path == head + d {
      assert tail == d;
      assert IsDigit(d[|d| - 1]);
    } else {
      assert tail == d + "\n";
      assert tail[..|tail| - 1] == d;
    }
  }

  /** `match_request`: the request is handled exactly when its path is a
      route path, and the match carries that path's digits. */
  function MatchRequest(prefix: string, path: string): (r: Option<string>)
    ensures forall d :: IsRoutePath(prefix, path, d) <==> r == Some(d)
  {
    var r := ParseTicketId(prefix, path);
    assert forall d :: IsRoutePath(prefix, path, d) ==> r == Some(d) by {
      forall d | IsRoutePath(prefix, path, d)
        ensures r == Some(d)
      {
        ParseTicketIdComplete(prefix, path, d);
      }
    }
    r
  }

  /** A path built from a prefix and a number's decimal text routes back to
      that number. */
  lemma RouteOfTicketId(prefix: string, id: nat)
    ensures var r := ParseTicketId(prefix, prefix + "/" + NatToDecimal(id));
            r == Some(NatToDecimal(id)) && ParseDecimal(r.value) == id
  {
    ParseTicketIdComplete(prefix, prefix + "/" + NatToDecimal(id), NatToDecimal(id));
    ParseNatToDecimal(id);
  }
}

=== FILE: scenarios.dfy ===
/** Worked configurations: one team with one board, and one priority
    translated from Trac to Kanban. */
module Scenarios {
  import opened Wrappers
  import Decimal
  import opened Trac
  import opened LeanKit

  function SampleConfig(): Config {
    Config(
      permission := "TICKET_MODIFY",
      kanbanBaseUrl := "https://example.leankitkanban.com",
      tracPathKanban := "/kanban",
      tracPathTicket := "ticket",
      tracTeams := ["alpha"],
      kanbanBoards := ["123"],
      kanbanLanePosition := 0,
      kanbanCardType := ["Ready"],
      tracPriorities := ["major"],
      kanbanPriorities := ["High"],
      tracPriorityField := "priority",
      tracBaseUrl := "https://trac.example.org")
  }

  /** Team "alpha" on board "123"; the reply has lane 7 and card type 9
      named "Ready": the board resolves to lane 7 and card type 9. */
  lemma SingleTeamBoard()
    ensures var reply := BoardIdentifiersReply([BoardIdentifiers([Lane(7)], [CardType(9, "Ready")])]);
            GetBoard(SampleConfig(), Some("alpha"), reply) ==
              Success(Some(Board("https://example.leankitkanban.com", "123", 7, 9)))
  {
    var config := SampleConfig();
    var reply := BoardIdentifiersReply([BoardIdentifiers([Lane(7)], [CardType(9, "Ready")])]);
    assert TeamBoards(config) == map["alpha" := "123"];
    assert MatchingCardTypeIds([CardType(9, "Ready")], ["Ready"]) == [9];
  }

  /** A second card type also named "Ready" makes the board unusable: three
      ids do not unpack into two. */
  lemma DuplicateCardTypeRejected()
    ensures var reply := BoardIdentifiersReply([BoardIdentifiers([Lane(7)], [CardType(9, "Ready"), CardType(10, "Ready")])]);
            GetBoard(SampleConfig(), Some("alpha"), reply) == Failure(CardTypeUnpack(3))
  {
    var config := SampleConfig();
    assert TeamBoards(config) == map["alpha" := "123"];
    assert MatchingCardTypeIds([CardType(9, "Ready"), CardType(10, "Ready")], ["Ready"]) == [9, 10];
  }

  /** A "major" ticket becomes a "High" card that points back at ticket 42. */
  lemma MajorBecomesHigh()
    ensures var ticket := Ticket(42, true, map["priority" := "major", "summary" := "Crash"]);
            var card := CreateCard(SampleConfig(), ticket);
            && card.Success?
            && card.value.priority == "High"
            && card.value.externalCardId == 42
            && card.value.externalSystemUrl == "https://trac.example.org/ticket/42"
  {
    var config := SampleConfig();
    assert Priorities(config) == map["major" := "High"];
    assert Decimal.NatToDecimal(42) == "42";
  }
}

=== FILE: trac.dfy ===
/** What the plugin receives from its host: the configuration of section
    `trac2kanban` (plus `trac.base_url`), tickets, and the errors that the
    Python code lets propagate to the host. */
module Trac {
  import opened Wrappers
  import opened PyDict

  /** The configuration keys the core reads, already fetched. Lists are what
      `getlist` returns; the lane position is the value after `int(...)`. */
  datatype Config = Config(
    permission: string,
    kanbanBaseUrl: string,
    tracPathKanban: string,
    tracPathTicket: string,
    tracTeams: seq<string>,
    kanbanBoards: seq<string>,
    kanbanLanePosition: int,
    kanbanCardType: seq<string>,
    tracPriorities: seq<string>,
    kanbanPriorities: seq<string>,
    tracPriorityField: string,
    tracBaseUrl: string
  )

  /** A ticket: its integer id, whether it is persisted (`ticket.exists`)
      and its field values. */
  datatype Ticket = Ticket(id: nat, persisted: bool, fields: map<string, string>) {
    /** `ticket[name]`: the field's value, or `None` when the ticket has no
        such field. */
    function Field(name: string): Option<string> {
      Get(fields, name)
    }
  }

  /** The exceptions the core raises; none of them is caught. */
  datatype Error =
    | TicketNotFound                                  // no persisted ticket for the requested id
    | EmptyReplyData                                  // `data['ReplyData'][0]` on an empty list
    | LanePositionOutOfRange(position: int, lanes: nat) // `Lanes[lane_position]` raises IndexError
    | UnknownTeam(team: string)                       // `boards[board_name]` raises KeyError
    | CardTypeUnpack(values: nat)                     // unpacking `values` ids into (lane, card type)
    | UnknownPriority(value: Option<string>)          // `priorities[ticket[priority_field]]` raises KeyError
    | NoBoard                                         // `board.add_card` on `None`
}

=== FILE: wrappers.dfy ===
/** Failure-compatible result types used throughout the model.
    `Option` stands for a Python value that may be `None`; `Result` stands for
    a computation that either returns a value or raises an exception. */
module Wrappers {

  datatype Option<+T> = None | Some(value: T) {

    predicate IsFailure() {
      None?
    }

    function PropagateFailure<U>(): Option<U>
      requires None?
    {
      None
    }

    function Extract(): T
      requires Some?
    {
      value
    }
  }

  datatype Result<+R, +E> = Success(value: R) | Failure(error: E) {

    predicate IsFailure() {
      Failure?
    }

    function PropagateFailure<U>(): Result<U, E>
      requires Failure?
    {
      Failure(error)
    }

    function Extract(): R
      requires Success?
    {
      value
    }
  }
}
